=== FILE: README.md ===
# Lab results page: data shaping

`main.py` (smy20011/TestResults) fetches a patient's lab reports from a hospital portal and writes
one HTML page with one section per metric. This project models the data path of that program's
`main()`:

- **Flattening.** For every listed report, in list order, the report's detail is fetched. Each of
  its assay items becomes one flat record. The record takes its name from the item name with every
  `★` removed, its date from the report, and its unit, result, normal range and state code from the
  item.
- **Metric list.** The page's metrics are the distinct record names. The names in `PERFERED_METRICS`
  (血红蛋白, 肌酐(肌氨酸氧化酶法）, 血小板) come first. The sort uses a stable key with two values.
- **Groups.** Per metric, the records with that name are sorted by date, newest first. Python's
  `sorted` is stable, so records of one date keep their flattened order. The header's normal range
  and unit come from the first record of the group.
- **Cells.** Each record of a group becomes one cell: its date, its result, the group's unit and a
  status. State `"N"` is normal, `"H"` is high, and every other code is low; every code but `"N"`
  is highlighted.
- **Text.** A section's text is its fragment with the cells substituted for the `RESULT`
  placeholder, with Python's `str.replace`.

The model has one module per concern:

- `Seqs`: Python's `filter`, and freedom from duplicates.
- `Text`: Python's `str.replace`, marker stripping, and `str` ordering.
- `Report`: the portal's records and the flattening loop.
- `Metrics`: the metric list.
- `Grouping`: the stable date sort and the groups.
- `Render`: classification, the cell and section loops, and the whole data path.
- `Html`: the section text and the placeholder substitution.

The loops of `main()` are methods, each proved against a specification function. The properties
the program relies on are lemmas about those functions.

## Model

| member | source | states |
|---|---|---|
| Report.ItemsOf | main.py:293-294 | the assay items of the detail answer for a report's number, in answer order; `RecordsOf` and `FlattenedAt` turn each into one record |
| Report.ToRecord | main.py:295-304 | a record's name never holds the `★` marker |
| Report.RecordsOf | main.py:294-304 | a report contributes exactly one record per assay item |
| Report.Flattened | main.py:279-304 | the flattened records: for each report in list order, one record per assay item in item order; its properties are stated by `FlattenedAt`, `FlattenedOrigin`, `FlattenedLength`, `FlattenedMarkerFree` and `FlattenedAppend` |
| Report.Flatten | main.py:279-304 | the flattening loop yields exactly the report-major, item-minor sequence `Flattened`; one record per item over all reports; no name holds the marker |
| Report.FlattenedAppend | main.py:281 | flattening two runs of reports is flattening each, one after the other |
| Report.FlattenedLength | main.py:294-304 | there are as many records as assay items over all reports |
| Report.FlattenedMarkerFree | main.py:297 | no flattened name holds the marker |
| Report.FlattenedAt | main.py:281-304 | item `j` of report `i` is the record at index (items of earlier reports) + `j`; its name is the stripped item name, its date the report's date, and its other fields the item's |
| Report.FlattenedOrigin | main.py:281-304 | conversely, every record index is (items of earlier reports) + `j` for some report `i` and item `j` |
| Text.StrLe | main.py:312 | Python `str` comparison: code point by code point, a proper prefix first; `StrLeReflexive`, `StrLeTotal`, `StrLeAntisymmetric` and `StrLeTransitive` show it is a total order |
| Text.Replace | main.py:297 | replacing a pattern by itself changes nothing; replacing a non-empty pattern by text no longer than it never lengthens the text, and by text of the same length keeps its length |
| Text.ReplaceAbsent | main.py:343 | a text in which the pattern does not occur is left as it is |
| Text.ReplaceSkip | main.py:343 | a prefix in which no occurrence of the pattern starts passes through unchanged |
| Text.StripMarker | main.py:297 | the stripped name holds no marker and is no longer than the original |
| Text.StripIsFilter | main.py:297 | `replace('★', '')` keeps exactly the characters other than the marker, in order |
| Text.StripConcat | main.py:297 | stripping distributes over concatenation |
| Text.StripUnchanged | main.py:297 | a name is unchanged by stripping if and only if it holds no marker |
| Text.StripIdempotent | main.py:297 | stripping twice is stripping once |
| Text.StripIgnoresMarker | main.py:297 | names that differ only by an inserted marker strip to the same record name |
| Text.StrLeReflexive | main.py:312 | Python `str` order is reflexive |
| Text.StrLeTotal | main.py:312 | any two dates are comparable |
| Text.StrLeAntisymmetric | main.py:312 | two strings each ordered before the other are equal |
| Text.StrLeTransitive | main.py:312 | the order is transitive |
| Seqs.Filter | main.py:311 | Python's `filter`: the elements that satisfy the predicate, in input order, never more than the input and each satisfying it; `FilterMembers`, `FilterAppend` and `FilterSplit` state the rest |
| Seqs.FilterMembers | main.py:311 | `filter` keeps exactly the elements that satisfy the predicate |
| Seqs.FilterAppend | main.py:311 | `filter` distributes over concatenation, so it keeps relative order |
| Seqs.FilterSplit | main.py:309 | filtering by a predicate and by its negation splits a sequence into two parts whose multisets add up to the original's |
| Seqs.FilterFilter | main.py:311-312 | filtering twice is filtering by the conjunction |
| Seqs.FilterAll | main.py:311 | a predicate that holds everywhere keeps everything |
| Seqs.FilterNone | main.py:311 | a predicate that holds nowhere keeps nothing |
| Seqs.FilterCongruent | main.py:311 | predicates that agree on the elements filter alike |
| Seqs.FilterDistinct | main.py:308-309 | filtering keeps a duplicate-free list duplicate-free |
| Metrics.Names | main.py:308 | the set of record names; `OrderMetrics` lists it without duplicates |
| Metrics.PreferredFirst | main.py:309 | the stable sort on a key that is true for preferred names, reversed: the preferred names, then the others, each in their incoming order; `PreferredFirstPermutation`, `PreferredBeforeOthers` and `PreferredFirstDistinct` state its properties |
| Metrics.PreferredFirstPermutation | main.py:309 | the preferred-first reordering is a permutation of the names |
| Metrics.PreferredBeforeOthers | main.py:309 | every preferred metric comes before every other metric |
| Metrics.PreferredFirstDistinct | main.py:309 | the reordering keeps the names distinct |
| Metrics.OrderMetrics | main.py:308-309 | the metric list holds each distinct record name exactly once, and the preferred names come first, whatever order the set is enumerated in |
| Grouping.InsertByDate | main.py:312 | one insertion step of the stable reverse date sort: the record goes before the first strictly older one; `InsertPermutation`, `InsertDescending`, `InsertStable` and `InsertBeforeOlder` state its properties |
| Grouping.SortByDateDesc | main.py:312 | `sorted` on the date, reversed, as an insertion sort taking the records in order; `SortPermutation`, `SortDescending` and `SortStable` together fix its output |
| Grouping.InsertPermutation | main.py:312 | inserting adds exactly the one record |
| Grouping.InsertDescending | main.py:312 | inserting into a newest-first sequence keeps it newest-first |
| Grouping.InsertStable | main.py:312 | the inserted record goes after every record of its date, and records of other dates keep their order |
| Grouping.InsertBeforeOlder | main.py:312 | a record newer than all others goes to the front without reordering any date |
| Grouping.SortPermutation | main.py:312 | the date sort is a permutation |
| Grouping.SortDescending | main.py:312 | the date sort orders by date, newest first |
| Grouping.SortStable | main.py:312 | the date sort is stable: the records of each date come out in their incoming order |
| Grouping.Named | main.py:311 | the records carrying the metric's name, in flattened order; `GroupMembers` and `GroupOrdered` state what the group takes from it |
| Grouping.Group | main.py:311-312 | a metric's records selected by name and sorted newest first; `GroupMembers`, `GroupNonEmpty`, `GroupOrdered` and `GroupHeadLatest` state its properties |
| Grouping.GroupMembers | main.py:311-312 | a group holds exactly the records with its name, with their multiplicities |
| Grouping.GroupNonEmpty | main.py:308-313 | every listed metric has a first record, so `rel_data[0]` exists |
| Grouping.GroupOrdered | main.py:311-312 | a group is newest-first, and its records of one date are that metric's records of that date in flattened order |
| Grouping.GroupHeadLatest | main.py:312-314 | the first record of a group has the latest date of its metric |
| Grouping.GroupsCover | main.py:310-312 | the groups of distinct metrics hold exactly the records whose name is one of them |
| Grouping.GroupsPartition | main.py:308-312 | the groups of the page's metrics hold exactly the flattened records: none is lost or shown twice |
| Grouping.ExactlyOneGroup | main.py:308-312 | a record lies in the group of its own name and in no other |
| Render.Classify | main.py:328-336 | state `"N"` is normal, `"H"` is high, and every other code is low (each an if-and-only-if) |
| Render.StatusClass | main.py:328-336 | the status dot's class: `"normal"`, `"high"` or `"low"` by status; `ClassifyTotal` ties it to the state code |
| Render.ParentClass | main.py:328-336 | the cell's extra class: empty for a normal result, `"abnormal"` otherwise; `ClassifyTotal` shows it is `"abnormal"` exactly when the code is not `"N"` |
| Render.ClassifyTotal | main.py:328-336 | every code gets one of the three dot classes; a cell is highlighted if and only if the code is not `"N"` |
| Render.CellOf | main.py:327-341 | the cell of one record: its date, its result, the group's unit and its classified status; `BuildCells` and `SectionContents` use it |
| Render.SectionOf | main.py:311-342 | the section of one metric: its name, the range and unit of the group's first record, and one cell per record of the group; `SectionContents` states its properties |
| Render.BuildCells | main.py:326-342 | one cell per record, in group order, with the record's date, result and status and the group's unit |
| Render.BuildSections | main.py:310-344 | one section per metric, in metric order, each equal to the specification `SectionOf` |
| Render.SectionContents | main.py:311-342 | a section carries its metric's name and the latest record's range and unit, and has one cell per record of that metric, newest first, all in the header's unit; cell `i` shows the date, result and status of record `i` of the group |
| Render.TotalCellsGroups | main.py:310-342 | the sections have as many cells as their groups have records |
| Render.RenderReport | main.py:265-345 | the page's sections have distinct names, exactly the flattened names, preferred first; each section is its specification; the cells number exactly the flattened records |
| Html.CellHtml | main.py:337-341 | the text of one cell, which starts with a tag; `CellShows` states what it shows |
| Html.CellsHtml | main.py:326-342 | the cells' text, one cell after another, starting with a tag when there is a cell; `CellsHtmlAppend` and `CellsShowEach` state its properties |
| Html.CellShows | main.py:337-341 | a cell's text opens with the `result-item` tag carrying its parent class (`abnormal` unless normal), and shows its date, its result followed by a space and the unit, and the status dot classed by its status |
| Html.CellsHtmlAppend | main.py:326-342 | the text of two runs of cells is the first run's text followed by the second's |
| Html.CellsShowEach | main.py:326-342 | every cell's text appears in the cells' text, right after the text of the cells before it, so all cells are shown in group order |
| Html.SectionTemplate | main.py:315-325 | the section fragment after interpolation of name, range and unit, with the `RESULT` placeholder in the grid; `SectionHtmlAsWritten` substitutes into it |
| Html.SectionHtmlAsWritten | main.py:315-343 | the section text as the program builds it: every `RESULT` in the interpolated fragment replaced by the cells' text; `AsWrittenAgrees` and `PlaceholderNameSplicesCells` state when it is and is not the intended text |
| Html.SectionHtml | main.py:315-343 | the intended section text: the header with name, range and unit as they are, and the cells' text in the grid only; `HeaderFirst` and `AsWrittenAgrees` state its properties |
| Html.HeaderFirst | main.py:315-325 | the intended section text starts with the header built from name, range and unit |
| Html.ReplaceFromRange | main.py:319-343 | from the range on, the substitution puts the cells into the grid and leaves the range and unit alone, provided the range followed directly by the unit holds no `RESULT` |
| Html.AsWrittenAgrees | main.py:315-343 | when the name holds no `RESULT`, and neither does the range followed directly by the unit, the program's section text is the intended one |
| Html.PlaceholderNameSplicesCells | main.py:315-343 | a metric named `RESULT` gets its cells spliced into its header as well as its grid, so its text is not the intended one |
| Html.PlaceholderAcrossRangeAndUnit | main.py:315-343 | a section whose range followed directly by its unit spells `RESULT` gets its cells in place of range and unit as well as in its grid, so its text is not the intended one, though neither value need hold `RESULT` on its own |
| Html.PageContentAsWritten | main.py:307-344 | the page content as the program accumulates it, section by section; `PageAgrees` states when it is the intended text |
| Html.PageContent | main.py:307-344 | the intended page content: the intended texts of the sections in page order; `PageAgrees` ties it to the program's text |
| Html.PageAgrees | main.py:307-345 | when no section's name holds `RESULT`, and neither does any section's range followed directly by its unit, the page content the program builds is the intended one |

## Left out

- The HTTP calls are not modelled (main.py:203-217, 270-274, 288-292). The report list is a
  parameter. The detail call is a function from report number to answer: the program sends the
  patient's id card and a fixed start date with each number, and the answer is assumed to depend on
  the number alone, as report numbers are unique. Two list entries with the same number cause two
  separate requests in the program; the model gives both the same answer.
- JSON parsing and pydantic validation are not modelled (main.py:275, 293). Answers arrive already
  typed; a malformed answer, which raises in the program, is outside the model.
- A list answer whose code is not 200 only prints a message (main.py:276-277). The model keeps
  using its data, as the program does, and does not model the message.
- Environment, arguments, console output and files are not modelled: `PATIENT_INFO`, `sys.argv`,
  the progress line and the output file (main.py:220, 266-268, 282, 306, 345).
- The text of `HTML_TEMPLATE` and its `CONTENT` substitution are not modelled (main.py:9-195, 345).
  The program fills that slot with `Html.PageContentAsWritten`, the sections' text after each one's
  own `RESULT` substitution. It equals the intended `Html.PageContent` whenever no section's name
  holds `RESULT`, and neither does any section's range followed directly by its unit
  (`Html.PageAgrees`). The template holds `CONTENT` once.
- Whitespace between tags in the f-strings is collapsed. It does not affect what the page shows.
- The order in which Python enumerates a set is not defined. `Metrics.OrderMetrics` picks the next
  name arbitrarily, so its guarantees hold for every enumeration order.
- Python's `str` comparison is modelled on code points, without locale.

## Findings

| source | as written | input that shows it | evidently intended | confidence | as-written member | corrected member |
|---|---|---|---|---|---|---|
| main.py:315-343 | `metric_html.replace("RESULT", result_html)` runs after the metric name, range and unit are interpolated, so it also replaces a `RESULT` inside any of them, and one formed across the range and the unit, which line 319 writes with nothing between them | a metric named `RESULT` with at least one record: its header shows the cells' markup instead of its name; likewise a range `1-RES` with the unit `ULT`, though neither holds `RESULT` on its own | only the grid placeholder receives the cells; the header shows name, range and unit as they are | high that the code behaves so; not executed | Html.PlaceholderNameSplicesCells, Html.PlaceholderAcrossRangeAndUnit | Html.SectionHtml, Html.HeaderFirst |

=== FILE: grouping.dfy ===
/** Grouping the records by metric name, each group sorted by date, newest first. */
module Grouping {
  import opened Seqs
  import opened Text
  import opened Report
  import opened Metrics

  /** Dates never increase along `s` (Python `str` order). */
  predicate DatesDescending(s: seq<Record>)
  {
    forall i, j :: 0 <= i < j < |s| ==> StrLe(s[j].date, s[i].date)
  }

  /** Inserts `r` into a newest-first sequence just before the first strictly older record, so after
      every record of the same date. */
  function InsertByDate(r: Record, s: seq<Record>): seq<Record>
  {
    if s == [] then [r]
    else if StrLt(s[0].date, r.date) then [r] + s
    else [s[0]] + InsertByDate(r, s[1..])
  }

  /** Python's stable `sorted` on the date, reversed: an insertion sort taking the records in order,
      so records of equal date keep their incoming order. */
  function SortByDateDesc(s: seq<Record>): seq<Record>
  {
    if s == [] then []
    else InsertByDate(s[|s| - 1], SortByDateDesc(s[..|s| - 1]))
  }

  /** The record's name is `m`: the test that selects a metric's records. */
  function NameIs(m: string): Record -> bool
  {
    (d: Record) => d.name == m
  }

  /** The record's date is `k`. */
  function DateIs(k: string): Record -> bool
  {
    (d: Record) => d.date == k
  }

  /** The record's name is one of `ms`. */
  function NameIn(ms: seq<string>): Record -> bool
  {
    (d: Record) => d.name in ms
  }

  /** The records carrying the name `m`, in flattened order, as Python's `filter` on the name selects
      them. */
  function Named(data: seq<Record>, m: string): seq<Record>
  {
    Filter(data, NameIs(m))
  }

  /** The records carrying the date `k`. */
  function Dated(s: seq<Record>, k: string): seq<Record>
  {
    Filter(s, DateIs(k))
  }

  /** The group of metric `m`: its records, newest first. */
  function Group(data: seq<Record>, m: string): seq<Record>
  {
    SortByDateDesc(Named(data, m))
  }

  lemma {:induction false} InsertPermutation(r: Record, s: seq<Record>)
    ensures multiset(InsertByDate(r, s)) == multiset(s) + multiset{r}
  {
    if s != [] && !StrLt(s[0].date, r.date) {
      InsertPermutation(r, s[1..]);
      assert s == [s[0]] + s[1..];
    }
  }

  lemma {:induction false} InsertDescending(r: Record, s: seq<Record>)
    requires DatesDescending(s)
    ensures DatesDescending(InsertByDate(r, s))
  {
    if s == [] {
    } else if StrLt(s[0].date, r.date) {
      StrLeTotal(s[0].date, r.date);
      forall j | 0 <= j < |s|
        ensures StrLe(s[j].date, r.date)
      {
        if j > 0 {
          StrLeTransitive(s[j].date, s[0].date, r.date);
        }
      }
    } else {
      var t := s[1..];
      InsertDescending(r, t);
      InsertPermutation(r, t);
      var u := InsertByDate(r, t);
      forall x | x in u
        ensures StrLe(x.date, s[0].date)
      {
        assert x in multiset(u);
        if x != r {
          assert x in t;
        }
      }
      assert InsertByDate(r, s) == [s[0]] + u;
    }
  }

  /** Inserting adds `r` after every record of its own date and leaves the records of other dates
      in place. */
  lemma {:induction false} InsertStable(r: Record, s: seq<Record>, k: string)
    requires DatesDescending(s)
    ensures Dated(InsertByDate(r, s), k) == Dated(s, k) + (if r.date == k then [r] else [])
  {
    if s == [] {
      assert [r][..0] == [];
    } else if StrLt(s[0].date, r.date) {
      InsertBeforeOlder(r, s, k);
    } else {
      InsertStable(r, s[1..], k);
      InsertBehind(r, s, k);
    }
  }

  /** When `r` goes behind the first record, that record keeps its place in front of the records of
      its date. */
  lemma InsertBehind(r: Record, s: seq<Record>, k: string)
    requires s != [] && !StrLt(s[0].date, r.date)
    requires Dated(InsertByDate(r, s[1..]), k) == Dated(s[1..], k) + (if r.date == k then [r] else [])
    ensures Dated(InsertByDate(r, s), k) == Dated(s, k) + (if r.date == k then [r] else [])
  {
    var x, t := s[0], s[1..];
    assert InsertByDate(r, s) == [x] + InsertByDate(r, t);
    assert s == [x] + t;
    FilterConsBoth(x, t, InsertByDate(r, t), if r.date == k then [r] else [], DateIs(k));
  }

  /** When `r` is newer than every record of `s`, no record of `s` carries its date, so putting it in
      front and putting it at the back select the same records of each date. */
  lemma InsertBeforeOlder(r: Record, s: seq<Record>, k: string)
    requires DatesDescending(s) && s != [] && StrLt(s[0].date, r.date)
    ensures Dated([r] + s, k) == Dated(s, k) + (if r.date == k then [r] else [])
  {
    if r.date == k {
      forall j | 0 <= j < |s|
        ensures s[j].date != k
      {
        if j == 0 {
          StrLeReflexive(r.date);
        }
      }
      FilterNone(s, DateIs(k));
    }
    FilterCons(r, s, DateIs(k));
  }

  /** The sort is a permutation. */
  lemma {:induction false} SortPermutation(s: seq<Record>)
    ensures multiset(SortByDateDesc(s)) == multiset(s)
  {
    if s != [] {
      var s', x := s[..|s| - 1], s[|s| - 1];
      var t := SortByDateDesc(s');
      assert SortByDateDesc(s) == InsertByDate(x, t);
      SortPermutation(s');
      InsertPermutation(x, t);
      assert multiset(s) == multiset(s') + multiset{x} by {
        assert s == s' + [x];
      }
    }
  }

  /** The sort orders by date, newest first. */
  lemma {:induction false} SortDescending(s: seq<Record>)
    ensures DatesDescending(SortByDateDesc(s))
  {
    if s != [] {
      SortDescending(s[..|s| - 1]);
      InsertDescending(s[|s| - 1], SortByDateDesc(s[..|s| - 1]));
    }
  }

  /** The sort is stable: the records of any one date come out in the order they came in. */
  lemma {:induction false} SortStable(s: seq<Record>, k: string)
    ensures Dated(SortByDateDesc(s), k) == Dated(s, k)
  {
    if s != [] {
      var s', x := s[..|s| - 1], s[|s| - 1];
      SortStable(s', k);
      SortDescending(s');
      InsertStable(x, SortByDateDesc(s'), k);
      assert s == s' + [x];
      FilterAppend(s', [x], DateIs(k));
      FilterCons(x, [], DateIs(k));
      assert [x] + [] == [x];
    }
  }

  /** A group holds exactly the records named `m`, with their multiplicities. */
  lemma GroupMembers(data: seq<Record>, m: string)
    ensures multiset(Group(data, m)) == multiset(Named(data, m))
    ensures forall r :: r in Group(data, m) <==> r in data && r.name == m
  {
    SortPermutation(Named(data, m));
    FilterMembers(data, NameIs(m));
    forall r
      ensures r in Group(data, m) <==> r in Named(data, m)
    {
      assert r in Group(data, m) <==> r in multiset(Group(data, m));
    }
  }

  /** Each listed metric has a non-empty group, so its first record exists. */
  lemma GroupNonEmpty(data: seq<Record>, m: string)
    requires m in Names(data)
    ensures |Group(data, m)| > 0
  {
    var r :| r in data && r.name == m;
    GroupMembers(data, m);
  }

  /** Within a group dates never increase, and the records of one date keep their flattened order. */
  lemma GroupOrdered(data: seq<Record>, m: string, k: string)
    ensures DatesDescending(Group(data, m))
    ensures Dated(Group(data, m), k) == Filter(data, (d: Record) => d.name == m && d.date == k)
  {
    SortDescending(Named(data, m));
    SortStable(Named(data, m), k);
    FilterFilter(data, NameIs(m), DateIs(k));
    FilterCongruent(data, Both(NameIs(m), DateIs(k)), (d: Record) => d.name == m && d.date == k);
  }

  /** The first record of a group is the latest: no record of that metric has a later date. */
  lemma GroupHeadLatest(data: seq<Record>, m: string)
    requires m in Names(data)
    ensures |Group(data, m)| > 0
    ensures forall r :: r in data && r.name == m ==> StrLe(r.date, Group(data, m)[0].date)
  {
    GroupNonEmpty(data, m);
    GroupMembers(data, m);
    SortDescending(Named(data, m));
    var g := Group(data, m);
    forall r | r in data && r.name == m
      ensures StrLe(r.date, g[0].date)
    {
      assert r in g;
      var j :| 0 <= j < |g| && g[j] == r;
      if j == 0 {
        StrLeReflexive(r.date);
      }
    }
  }

  /** The groups of a list of metrics, one after the other. */
  function Groups(data: seq<Record>, metrics: seq<string>): seq<Record>
  {
    if metrics == [] then []
    else Groups(data, metrics[..|metrics| - 1]) + Group(data, metrics[|metrics| - 1])
  }

  /** The groups of distinct metrics together hold exactly the records whose name is one of them. */
  lemma {:induction false} GroupsCover(data: seq<Record>, metrics: seq<string>)
    requires Distinct(metrics)
    ensures multiset(Groups(data, metrics)) == multiset(Filter(data, NameIn(metrics)))
  {
    if metrics == [] {
      FilterNone(data, NameIn(metrics));
    } else {
      var ms, m := metrics[..|metrics| - 1], metrics[|metrics| - 1];
      assert m !in ms;
      GroupsCover(data, ms);
      GroupMembers(data, m);
      var inAll := Filter(data, NameIn(metrics));
      FilterSplit(inAll, NameIs(m));
      FilterCongruent(inAll, Not(NameIs(m)), NameIn(ms));
      FilterFilter(data, NameIn(metrics), NameIs(m));
      FilterFilter(data, NameIn(metrics), NameIn(ms));
      FilterCongruent(data, Both(NameIn(metrics), NameIs(m)), NameIs(m));
      FilterCongruent(data, Both(NameIn(metrics), NameIn(ms)), NameIn(ms));
      assert Groups(data, metrics) == Groups(data, ms) + Group(data, m);
    }
  }

  /** Grouping partitions the records: the groups of the page's metrics hold exactly the flattened
      records, with their multiplicities, so none is lost or shown twice. */
  lemma GroupsPartition(data: seq<Record>, metrics: seq<string>)
    requires Distinct(metrics)
    requires forall m :: m in metrics <==> m in Names(data)
    ensures multiset(Groups(data, metrics)) == multiset(data)
    ensures |Groups(data, metrics)| == |data|
  {
    GroupsCover(data, metrics);
    FilterAll(data, NameIn(metrics));
    assert |multiset(Groups(data, metrics))| == |multiset(data)|;
  }

  /** A record lies in exactly one group of the page: the one of its own name. */
  lemma ExactlyOneGroup(data: seq<Record>, metrics: seq<string>, r: Record)
    requires Distinct(metrics)
    requires forall m :: m in metrics <==> m in Names(data)
    requires r in data
    ensures exists i :: 0 <= i < |metrics| && metrics[i] == r.name
    ensures forall i :: 0 <= i < |metrics| ==> (r in Group(data, metrics[i]) <==> metrics[i] == r.name)
  {
    assert r.name in Names(data);
    forall i | 0 <= i < |metrics|
      ensures r in Group(data, metrics[i]) <==> metrics[i] == r.name
    {
      GroupMembers(data, metrics[i]);
    }
  }
}

=== FILE: html.dfy ===
/** The text of a section: the section fragment with its `RESULT` placeholder, the cells' text, and
    the substitution of the one into the other. Whitespace between tags is left out. */
module Html {
  import opened Seqs
  import opened Text
  import opened Render

  /** The placeholder the section fragment holds where its cells go. */
  const Placeholder: string := "RESULT"

  const SectionOpen: string := "<div class=\"test-section\">" + ("<div class=\"test-header\">" + "<div class=\"test-name\">")
  const RangeOpen: string := "</div><div class=\"normal-range\">正常范围: "
  const GridOpen: string := "</div></div><div class=\"results-grid\">"
  const SectionClose: string := "</div></div>"

  /** The header of a section: the metric's name, then its normal range followed by its unit. */
  function HeaderHtml(name: string, rangeLimit: string, unit: string): string
  {
    SectionOpen + (name + (RangeOpen + ((rangeLimit + unit) + GridOpen)))
  }

  /** A section's text with `grid` as the content of its grid. */
  function SectionWith(name: string, rangeLimit: string, unit: string, grid: string): string
  {
    SectionOpen + (name + (RangeOpen + ((rangeLimit + unit) + (GridOpen + (grid + SectionClose)))))
  }

  /** The section fragment after interpolation, with the placeholder still in the grid. */
  function SectionTemplate(name: string, rangeLimit: string, unit: string): string
  {
    SectionWith(name, rangeLimit, unit, Placeholder)
  }

  /** The opening tag of a cell, carrying the parent class: `abnormal` unless the result is normal. */
  function ItemOpen(s: Status): string
  {
    "<div class=\"result-item " + ParentClass(s) + "\">"
  }

  const DateOpen: string := "<div class=\"result-date\">"
  const ValueOpen: string := "</div><div class=\"result-value\">"
  const CellClose: string := "</div></div>"

  /** The value a cell shows: the result, a space and the unit. */
  function ValueText(c: Cell): string
  {
    c.result + " " + c.unit
  }

  /** The status dot, classed by the status. */
  function StatusDot(s: Status): string
  {
    "<span class=\"status-dot " + StatusClass(s) + "\"></span>"
  }

  /** The text of one cell: highlighted when abnormal, then date, result, unit and status dot. */
  function CellHtml(c: Cell): (t: string)
    ensures t != [] && t[0] == '<'
  {
    ItemOpen(c.status) + (DateOpen + (c.date + (ValueOpen + (ValueText(c) + (StatusDot(c.status) + CellClose)))))
  }

  /** The text of the cells, one after the other. */
  function CellsHtml(cells: seq<Cell>): (t: string)
    ensures cells != [] ==> t != [] && t[0] == '<'
  {
    if cells == [] then []
    else CellsHtml(cells[..|cells| - 1]) + CellHtml(cells[|cells| - 1])
  }

  /** `p` occurs in `x + (p + y)` right after `x`. */
  lemma OccursBetween(x: string, p: string, y: string)
    ensures OccursAt(x + (p + y), p, |x|)
  {
    assert (x + (p + y))[|x|..|x| + |p|] == p;
  }

  /** An occurrence moves right by the length of a prefix put in front of the text. */
  lemma OccursShift(x: string, t: string, p: string, i: int)
    requires OccursAt(t, p, i)
    ensures OccursAt(x + t, p, |x| + i)
  {
    assert (x + t)[|x| + i..|x| + i + |p|] == t[i..i + |p|];
  }

  /** The text of a cell after its opening tag: date tag, date, value tag, value, dot and close. */
  lemma CellParts(c: Cell)
    ensures CellHtml(c) == ItemOpen(c.status) + (DateOpen + (c.date + (ValueOpen + (ValueText(c) + (StatusDot(c.status) + CellClose)))))
  {
  }

  /** The date sits right after the opening tag and the date tag. */
  lemma CellShowsDate(c: Cell)
    ensures OccursAt(CellHtml(c), c.date, |ItemOpen(c.status)| + |DateOpen|)
  {
    var afterDate := ValueOpen + (ValueText(c) + (StatusDot(c.status) + CellClose));
    CellParts(c);
    OccursBetween(DateOpen, c.date, afterDate);
    OccursShift(ItemOpen(c.status), DateOpen + (c.date + afterDate), c.date, |DateOpen|);
  }

  /** The value sits right after the date and the value tag. */
  lemma CellShowsValue(c: Cell)
    ensures OccursAt(CellHtml(c), ValueText(c), |ItemOpen(c.status)| + |DateOpen| + |c.date| + |ValueOpen|)
  {
    var v, afterValue := ValueText(c), StatusDot(c.status) + CellClose;
    var afterDate := ValueOpen + (v + afterValue);
    CellParts(c);
    OccursBetween(ValueOpen, v, afterValue);
    OccursShift(c.date, afterDate, v, |ValueOpen|);
    OccursShift(DateOpen, c.date + afterDate, v, |c.date| + |ValueOpen|);
    OccursShift(ItemOpen(c.status), DateOpen + (c.date + afterDate), v, |DateOpen| + |c.date| + |ValueOpen|);
  }

  /** `p` occurs in a right-nested concatenation right after the four pieces in front of it. */
  lemma OccursAfterFour(w: string, x: string, y: string, z: string, p: string, rest: string)
    ensures OccursAt(w + (x + (y + (z + (p + rest)))), p, |w| + |x| + |y| + |z|)
  {
    OccursBetween(z, p, rest);
    OccursShift(y, z + (p + rest), p, |z|);
    OccursShift(x, y + (z + (p + rest)), p, |y| + |z|);
    OccursShift(w, x + (y + (z + (p + rest))), p, |x| + |y| + |z|);
  }

  /** The status dot sits right after the value. */
  lemma CellShowsDot(c: Cell)
    ensures OccursAt(CellHtml(c), StatusDot(c.status),
                     |ItemOpen(c.status)| + |DateOpen| + |c.date| + |ValueOpen| + |ValueText(c)|)
  {
    var v, d := ValueText(c), StatusDot(c.status);
    CellParts(c);
    OccursAfterFour(DateOpen, c.date, ValueOpen, v, d, CellClose);
    OccursShift(ItemOpen(c.status), DateOpen + (c.date + (ValueOpen + (v + (d + CellClose)))), d,
                |DateOpen| + |c.date| + |ValueOpen| + |v|);
  }

  /** A cell opens with the tag carrying its parent class, and shows its date, its result followed by
      a space and the unit, and the status dot of its status. */
  lemma CellShows(c: Cell)
    ensures var t := CellHtml(c);
            && |ItemOpen(c.status)| <= |t| && t[..|ItemOpen(c.status)|] == ItemOpen(c.status)
            && Contains(t, c.date)
            && Contains(t, c.result + " " + c.unit)
            && Contains(t, "<span class=\"status-dot " + StatusClass(c.status) + "\"></span>")
  {
    CellParts(c);
    OccursBetween([], ItemOpen(c.status), DateOpen + (c.date + (ValueOpen + (ValueText(c) + (StatusDot(c.status) + CellClose)))));
    CellShowsDate(c);
    CellShowsValue(c);
    CellShowsDot(c);
  }

  /** The text of two runs of cells is the text of the first, then that of the second. */
  lemma {:induction false} CellsHtmlAppend(a: seq<Cell>, b: seq<Cell>)
    ensures CellsHtml(a + b) == CellsHtml(a) + CellsHtml(b)
  {
    if b == [] {
      assert a + b == a;
    } else {
      var b', x := b[..|b| - 1], b[|b| - 1];
      assert (a + b)[..|a + b| - 1] == a + b' && (a + b)[|a + b| - 1] == x;
      CellsHtmlAppend(a, b');
      Assoc(CellsHtml(a), CellsHtml(b'), CellHtml(x));
    }
  }

  /** The text of one cell alone is that cell's text. */
  lemma CellsHtmlSingle(x: Cell)
    ensures CellsHtml([x]) == CellHtml(x)
  {
    assert [x][..0] == [];
  }

  /** The cells' text is the text of the cells before `i`, then cell `i`'s, then the rest. */
  lemma CellsSplitAt(cells: seq<Cell>, i: int)
    requires 0 <= i < |cells|
    ensures CellsHtml(cells) == CellsHtml(cells[..i]) + (CellHtml(cells[i]) + CellsHtml(cells[i + 1..]))
  {
    var pre, x, after := cells[..i], cells[i], cells[i + 1..];
    SplitAround(cells, i);
    CellsHtmlSingle(x);
    CellsHtmlAppend([x], after);
    CellsHtmlAppend(pre, [x] + after);
  }

  /** Cell `i`'s text appears in the cells' text right after the text of the cells before it, so
      every cell is shown, in order. */
  lemma CellsShowEach(cells: seq<Cell>, i: int)
    requires 0 <= i < |cells|
    ensures OccursAt(CellsHtml(cells), CellHtml(cells[i]), |CellsHtml(cells[..i])|)
  {
    CellsSplitAt(cells, i);
    OccursBetween(CellsHtml(cells[..i]), CellHtml(cells[i]), CellsHtml(cells[i + 1..]));
  }

  /** The section as the program writes it: the placeholder is replaced in the interpolated fragment,
      so every occurrence of `RESULT`, also one inside the name, the range or the unit, receives the
      cells. */
  function SectionHtmlAsWritten(s: Section): string
  {
    Replace(SectionTemplate(s.name, s.rangeLimit, s.unit), Placeholder, CellsHtml(s.cells))
  }

  /** The section as intended: the header shows the name, range and unit as they are, and the cells
      go into the grid and nowhere else. */
  function SectionHtml(s: Section): string
  {
    SectionWith(s.name, s.rangeLimit, s.unit, CellsHtml(s.cells))
  }

  /** The text of all sections in page order: what fills the page's `CONTENT` slot. */
  function PageContent(sections: seq<Section>): string
  {
    if sections == [] then []
    else PageContent(sections[..|sections| - 1]) + SectionHtml(sections[|sections| - 1])
  }

  /** The page text as the program builds it, section by section with its own substitution. */
  function PageContentAsWritten(sections: seq<Section>): string
  {
    if sections == [] then []
    else PageContentAsWritten(sections[..|sections| - 1]) + SectionHtmlAsWritten(sections[|sections| - 1])
  }

  /** Neither the section's name nor its range followed directly by its unit holds `RESULT`. */
  predicate PlaceholderFree(s: Section)
  {
    !Contains(s.name, Placeholder) && !Contains(s.rangeLimit + s.unit, Placeholder)
  }

  /** A section's text is its header followed by its grid and the closing tags. */
  lemma SectionSplit(name: string, rangeLimit: string, unit: string, grid: string)
    ensures SectionWith(name, rangeLimit, unit, grid)
         == HeaderHtml(name, rangeLimit, unit) + (grid + SectionClose)
  {
    var g, ru := grid + SectionClose, rangeLimit + unit;
    Assoc(ru, GridOpen, g);
    Assoc(RangeOpen, ru + GridOpen, g);
    Assoc(name, RangeOpen + (ru + GridOpen), g);
    Assoc(SectionOpen, name + (RangeOpen + (ru + GridOpen)), g);
  }

  /** The intended section text starts with its header, whatever its cells. */
  lemma HeaderFirst(s: Section)
    ensures var h := HeaderHtml(s.name, s.rangeLimit, s.unit);
            |h| <= |SectionHtml(s)| && SectionHtml(s)[..|h|] == h
  {
    SectionSplit(s.name, s.rangeLimit, s.unit, CellsHtml(s.cells));
  }

  /** The placeholder starts with `R` and holds no `<`. */
  lemma PlaceholderFacts()
    ensures Placeholder != [] && Placeholder[0] == 'R' && '<' !in Placeholder
  {
  }

  /** None of the fixed fragments holds the placeholder's first letter, and the ones that follow a
      field start with a character the placeholder does not hold. */
  lemma FragmentFacts()
    ensures Placeholder != [] && Placeholder[0] == 'R' && '<' !in Placeholder
    ensures 'R' !in SectionOpen && 'R' !in RangeOpen && 'R' !in GridOpen && 'R' !in SectionClose
    ensures RangeOpen != [] && RangeOpen[0] == '<' && GridOpen != [] && GridOpen[0] == '<'
  {
    PlaceholderFacts();
    SectionOpenFacts();
    RangeOpenFacts();
    GridOpenFacts();
    SectionCloseFacts();
  }

  lemma SectionOpenFacts()
    ensures 'R' !in SectionOpen
  {
    var a, b, c := "<div class=\"test-section\">", "<div class=\"test-header\">", "<div class=\"test-name\">";
    assert 'R' !in a;
    assert 'R' !in b;
    assert 'R' !in c;
  }

  lemma RangeOpenFacts()
    ensures 'R' !in RangeOpen && RangeOpen != [] && RangeOpen[0] == '<'
  {
  }

  lemma GridOpenFacts()
    ensures 'R' !in GridOpen && GridOpen != [] && GridOpen[0] == '<'
  {
  }

  lemma SectionCloseFacts()
    ensures 'R' !in SectionClose
  {
  }

  /** The replacement stops at the tail of the fragment: it holds no `RESULT`. */
  lemma CloseUnchanged(rep: string)
    ensures Replace(SectionClose, Placeholder, rep) == SectionClose
  {
    FragmentFacts();
    ReplaceSkipPlain(SectionClose, [], Placeholder, rep);
    assert SectionClose + [] == SectionClose;
  }

  /** From the range on, the fragment becomes range, unit, grid, cells and tail, provided the range
      followed directly by the unit holds no `RESULT`. */
  lemma ReplaceFromRange(rangeLimit: string, unit: string, rep: string)
    requires !Contains(rangeLimit + unit, Placeholder)
    ensures Replace(RangeOpen + ((rangeLimit + unit) + (GridOpen + (Placeholder + SectionClose))), Placeholder, rep)
         == RangeOpen + ((rangeLimit + unit) + (GridOpen + (rep + SectionClose)))
  {
    FragmentFacts();
    var ru := rangeLimit + unit;
    var tail := Placeholder + SectionClose;
    ReplaceFront(SectionClose, Placeholder, rep);
    CloseUnchanged(rep);
    ReplaceSkipPlain(GridOpen, tail, Placeholder, rep);
    ReplaceSkipField(ru, GridOpen + tail, Placeholder, rep);
    ReplaceSkipPlain(RangeOpen, ru + (GridOpen + tail), Placeholder, rep);
  }

  /** When neither the name nor the range followed directly by the unit holds `RESULT`, the program's
      section text is the intended one. */
  lemma AsWrittenAgrees(s: Section)
    requires !Contains(s.name, Placeholder)
    requires !Contains(s.rangeLimit + s.unit, Placeholder)
    ensures SectionHtmlAsWritten(s) == SectionHtml(s)
  {
    FragmentFacts();
    var cells := CellsHtml(s.cells);
    var rest := RangeOpen + ((s.rangeLimit + s.unit) + (GridOpen + (Placeholder + SectionClose)));
    ReplaceFromRange(s.rangeLimit, s.unit, cells);
    ReplaceSkipField(s.name, rest, Placeholder, cells);
    ReplaceSkipPlain(SectionOpen, s.name + rest, Placeholder, cells);
  }

  /** A metric named `RESULT` gets its cells spliced into its header as well as into its grid, so the
      program's section text is not the intended one. */
  lemma PlaceholderNameSplicesCells(s: Section)
    requires s.name == Placeholder && s.cells != []
    requires !Contains(s.rangeLimit + s.unit, Placeholder)
    ensures SectionHtmlAsWritten(s) == SectionWith(CellsHtml(s.cells), s.rangeLimit, s.unit, CellsHtml(s.cells))
    ensures SectionHtmlAsWritten(s) != SectionHtml(s)
  {
    FragmentFacts();
    var cells := CellsHtml(s.cells);
    var rest := RangeOpen + ((s.rangeLimit + s.unit) + (GridOpen + (Placeholder + SectionClose)));
    ReplaceFromRange(s.rangeLimit, s.unit, cells);
    ReplaceFront(rest, Placeholder, cells);
    ReplaceSkipPlain(SectionOpen, Placeholder + rest, Placeholder, cells);
    var k := |SectionOpen|;
    assert SectionHtmlAsWritten(s)[k] == cells[0] == '<';
    assert SectionHtml(s)[k] == 'R';
  }

  /** The program's text of a section whose range followed by its unit is exactly `RESULT`: the cells
      stand in for range and unit, and again in the grid. */
  lemma AcrossRangeAndUnitText(s: Section)
    requires !Contains(s.name, Placeholder)
    requires s.rangeLimit + s.unit == Placeholder
    ensures SectionHtmlAsWritten(s) == SectionWith(s.name, CellsHtml(s.cells), [], CellsHtml(s.cells))
  {
    FragmentFacts();
    var cells := CellsHtml(s.cells);
    var tail := Placeholder + SectionClose;
    var rest := RangeOpen + (Placeholder + (GridOpen + tail));
    ReplaceFront(SectionClose, Placeholder, cells);
    CloseUnchanged(cells);
    ReplaceSkipPlain(GridOpen, tail, Placeholder, cells);
    ReplaceFront(GridOpen + tail, Placeholder, cells);
    ReplaceSkipPlain(RangeOpen, Placeholder + (GridOpen + tail), Placeholder, cells);
    ReplaceSkipField(s.name, rest, Placeholder, cells);
    ReplaceSkipPlain(SectionOpen, s.name + rest, Placeholder, cells);
    assert cells + [] == cells;
  }

  /** A `RESULT` formed across the range and the unit, which the fragment writes with nothing
      between them, also receives the cells, even when neither value holds `RESULT` on its own. */
  lemma PlaceholderAcrossRangeAndUnit(s: Section)
    requires !Contains(s.name, Placeholder)
    requires s.rangeLimit + s.unit == Placeholder && s.cells != []
    ensures SectionHtmlAsWritten(s) == SectionWith(s.name, CellsHtml(s.cells), [], CellsHtml(s.cells))
    ensures SectionHtmlAsWritten(s) != SectionHtml(s)
  {
    FragmentFacts();
    AcrossRangeAndUnitText(s);
    var cells := CellsHtml(s.cells);
    var k := |SectionOpen| + |s.name| + |RangeOpen|;
    assert SectionHtmlAsWritten(s)[k] == cells[0] == '<';
    assert SectionHtml(s)[k] == 'R';
  }

  /** When no section's name holds `RESULT`, and neither does any section's range followed directly
      by its unit, the page the program writes is the intended one. */
  lemma {:induction false} PageAgrees(sections: seq<Section>)
    requires forall i :: 0 <= i < |sections| ==> PlaceholderFree(sections[i])
    ensures PageContentAsWritten(sections) == PageContent(sections)
  {
    if sections != [] {
      var n := |sections| - 1;
      var front := sections[..n];
      forall i | 0 <= i < n
        ensures PlaceholderFree(front[i])
      {
        assert front[i] == sections[i];
      }
      PageAgrees(front);
      AsWrittenAgrees(sections[n]);
    }
  }
}

=== FILE: metrics.dfy ===
/** The list of metric names the page shows, one section each: the distinct record names, with the
    preferred metrics first. */
module Metrics {
  import opened Seqs
  import opened Report

  /** The metrics promoted to the top of the page. */
  const Preferred: set<string> := {"血红蛋白", "肌酐(肌氨酸氧化酶法）", "血小板"}

  /** The name is one of the preferred metrics. */
  predicate IsPreferred(m: string)
  {
    m in Preferred
  }

  /** The distinct names among the records. */
  function Names(data: seq<Record>): set<string>
  {
    set r | r in data :: r.name
  }

  /** Sorting with the key "is preferred" in descending order. The sort is stable and the key has two
      values, so the result is the preferred names in their incoming order followed by the others in
      theirs. */
  function PreferredFirst(names: seq<string>): seq<string>
  {
    Filter(names, IsPreferred) + Filter(names, Not(IsPreferred))
  }

  /** The reordering neither loses nor adds a name, nor changes how often one occurs. */
  lemma PreferredFirstPermutation(names: seq<string>)
    ensures multiset(PreferredFirst(names)) == multiset(names)
  {
    FilterSplit(names, IsPreferred);
  }

  /** Every preferred name comes before every other name. */
  lemma PreferredBeforeOthers(names: seq<string>)
    ensures var r := PreferredFirst(names);
            forall i, j :: 0 <= i < j < |r| && r[j] in Preferred ==> r[i] in Preferred
  {
    var front, back := Filter(names, IsPreferred), Filter(names, Not(IsPreferred));
    var r := front + back;
    forall k | |front| <= k < |r|
      ensures r[k] !in Preferred
    {
      assert r[k] == back[k - |front|];
      assert Not(IsPreferred)(back[k - |front|]);
    }
    forall k | 0 <= k < |front|
      ensures r[k] in Preferred
    {
      assert r[k] == front[k];
    }
  }

  /** The reordering keeps a duplicate-free list duplicate-free. */
  lemma PreferredFirstDistinct(names: seq<string>)
    requires Distinct(names)
    ensures Distinct(PreferredFirst(names))
  {
    var front, back := Filter(names, IsPreferred), Filter(names, Not(IsPreferred));
    FilterDistinct(names, IsPreferred);
    FilterDistinct(names, Not(IsPreferred));
    forall i, j | 0 <= i < |front| && 0 <= j < |back|
      ensures front[i] != back[j]
    {
    }
  }

  /** The metric list of the page: the set of distinct names, enumerated in an unspecified order (the
      order in which a set is iterated is not defined), then sorted preferred-first. */
  method OrderMetrics(data: seq<Record>) returns (metrics: seq<string>)
    ensures Distinct(metrics)
    ensures forall m :: m in metrics <==> m in Names(data)
    ensures forall i, j :: 0 <= i < j < |metrics| && metrics[j] in Preferred ==> metrics[i] in Preferred
  {
    var remaining := set d | d in data :: d.name;
    var enumeration := [];
    while remaining != {}
      invariant Distinct(enumeration)
      invariant remaining <= Names(data)
      invariant forall m :: m in enumeration <==> m in Names(data) && m !in remaining
      decreases |remaining|
    {
      var m :| m in remaining;
      enumeration := enumeration + [m];
      remaining := remaining - {m};
    }
    metrics := PreferredFirst(enumeration);
    PreferredFirstPermutation(enumeration);
    PreferredFirstDistinct(enumeration);
    PreferredBeforeOthers(enumeration);
    forall m ensures m in metrics <==> m in enumeration {
      assert m in metrics <==> m in multiset(metrics);
      assert m in enumeration <==> m in multiset(enumeration);
    }
  }
}

=== FILE: render.dfy ===
/** The page as sections and cells: classification of each result, the cell loop, the section loop,
    and the whole data path from the report list to the sections. */
module Render {
  import opened Seqs
  import opened Text
  import opened Report
  import opened Metrics
  import opened Grouping

  /** What a cell's status dot shows. */
  datatype Status = Normal | High | Low

  /** The state code of a result: `"N"` is normal, `"H"` high, and every other code low. */
  function Classify(state: string): (s: Status)
    ensures s == Normal <==> state == "N"
    ensures s == High <==> state == "H"
    ensures s == Low <==> state != "N" && state != "H"
  {
    if state == "N" then Normal
    else if state == "H" then High
    else Low
  }

  /** The CSS class of the status dot. */
  function StatusClass(s: Status): string
  {
    match s
    case Normal => "normal"
    case High => "high"
    case Low => "low"
  }

  /** The extra CSS class of the whole cell: abnormal results are highlighted. */
  function ParentClass(s: Status): string
  {
    if s == Normal then "" else "abnormal"
  }

  /** Every state code gets one of the three dot classes, and the cell is highlighted exactly when the
      code is not `"N"`. */
  lemma ClassifyTotal(state: string)
    ensures StatusClass(Classify(state)) in {"normal", "high", "low"}
    ensures ParentClass(Classify(state)) in {"", "abnormal"}
    ensures ParentClass(Classify(state)) == "abnormal" <==> state != "N"
    ensures StatusClass(Classify(state)) == "high" <==> state == "H"
    ensures StatusClass(Classify(state)) == "normal" <==> state == "N"
  {
  }

  /** One result cell: the record's date, its result, the group's unit and the status. */
  datatype Cell = Cell(date: string, result: string, unit: string, status: Status)

  /** One section of the page: the metric's name, the header's normal range and unit, and a cell per
      record of the group. */
  datatype Section = Section(name: string, rangeLimit: string, unit: string, cells: seq<Cell>)

  /** The cell shown for record `d` in a section whose unit is `unit`. */
  function CellOf(d: Record, unit: string): Cell
  {
    Cell(d.date, d.result, unit, Classify(d.state))
  }

  /** The section of metric `m`: header values and cells, as the section loop builds them. */
  function SectionOf(data: seq<Record>, m: string): (s: Section)
    requires m in Names(data)
  {
    GroupNonEmpty(data, m);
    var g := Group(data, m);
    Section(m, g[0].rangeLimit, g[0].unit, seq(|g|, i requires 0 <= i < |g| => CellOf(g[i], g[0].unit)))
  }

  /** The cell loop: one cell per record of the group, in the group's order, each showing the
      group's unit. */
  method BuildCells(group: seq<Record>, unit: string) returns (cells: seq<Cell>)
    ensures |cells| == |group|
    ensures forall i :: 0 <= i < |group| ==>
              && cells[i].date == group[i].date
              && cells[i].result == group[i].result
              && cells[i].unit == unit
              && cells[i].status == Classify(group[i].state)
  {
    cells := [];
    for i := 0 to |group|
      invariant |cells| == i
      invariant forall k :: 0 <= k < i ==> cells[k] == CellOf(group[k], unit)
    {
      var d := group[i];
      var status := Classify(d.state);
      cells := cells + [Cell(d.date, d.result, unit, status)];
    }
  }

  /** The section loop: for each metric, select and sort its records, take the header values from the
      first of them, and build the cells. */
  method BuildSections(data: seq<Record>, metrics: seq<string>) returns (sections: seq<Section>)
    requires forall m :: m in metrics ==> m in Names(data)
    ensures |sections| == |metrics|
    ensures forall i :: 0 <= i < |metrics| ==> sections[i] == SectionOf(data, metrics[i])
  {
    sections := [];
    for i := 0 to |metrics|
      invariant |sections| == i
      invariant forall k :: 0 <= k < i ==> sections[k] == SectionOf(data, metrics[k])
    {
      var metric := metrics[i];
      var relData := SortByDateDesc(Filter(data, NameIs(metric)));
      GroupNonEmpty(data, metric);
      var rangeLimit := relData[0].rangeLimit;
      var unit := relData[0].unit;
      var cells := BuildCells(relData, unit);
      assert cells == SectionOf(data, metric).cells;
      sections := sections + [Section(metric, rangeLimit, unit, cells)];
    }
  }

  /** What a section shows: its header carries the range and unit of the latest record of the metric;
      it has one cell per record of that metric, newest first, every cell showing the header's unit;
      and each cell shows its record's date, result and status. */
  lemma SectionContents(data: seq<Record>, m: string)
    requires m in Names(data)
    ensures var s, g := SectionOf(data, m), Group(data, m);
            && s.name == m
            && |s.cells| == |g| == |Named(data, m)| && |g| > 0
            && s.rangeLimit == g[0].rangeLimit && s.unit == g[0].unit
            && (forall r :: r in data && r.name == m ==> StrLe(r.date, g[0].date))
            && (forall i :: 0 <= i < |g| ==> s.cells[i].unit == s.unit)
            && (forall i, j :: 0 <= i < j < |g| ==> StrLe(s.cells[j].date, s.cells[i].date))
            && (forall i :: 0 <= i < |g| ==>
                  && s.cells[i].date == g[i].date
                  && s.cells[i].result == g[i].result
                  && s.cells[i].status == Classify(g[i].state))
  {
    GroupHeadLatest(data, m);
    GroupMembers(data, m);
    GroupOrdered(data, m, "");
    var g := Group(data, m);
    assert |multiset(g)| == |multiset(Named(data, m))|;
  }

  /** The names of the sections, in page order. */
  function SectionNames(sections: seq<Section>): (names: seq<string>)
    ensures |names| == |sections|
  {
    seq(|sections|, i requires 0 <= i < |sections| => sections[i].name)
  }

  /** The number of cells over all sections. */
  function TotalCells(sections: seq<Section>): nat
  {
    if sections == [] then 0
    else TotalCells(sections[..|sections| - 1]) + |sections[|sections| - 1].cells|
  }

  /** The cells of the sections built for `metrics` number as many as the records of their groups. */
  lemma {:induction false} TotalCellsGroups(data: seq<Record>, sections: seq<Section>, metrics: seq<string>)
    requires forall m :: m in metrics ==> m in Names(data)
    requires |sections| == |metrics|
    requires forall i :: 0 <= i < |metrics| ==> sections[i] == SectionOf(data, metrics[i])
    ensures TotalCells(sections) == |Groups(data, metrics)|
  {
    if metrics != [] {
      var n := |metrics| - 1;
      TotalCellsGroups(data, sections[..n], metrics[..n]);
    }
  }

  /** The data path of the page, from the report-list answer to the sections. The list's data is used
      whatever its code: a failed listing is only logged. */
  method RenderReport(list: ApiResponse<seq<ReportData>>, fetch: DetailFetch) returns (sections: seq<Section>)
    ensures var data := Flattened(list.data, fetch);
            && Distinct(SectionNames(sections))
            && (forall m :: m in SectionNames(sections) <==> m in Names(data))
            && (forall i, j :: 0 <= i < j < |sections| && sections[j].name in Preferred ==> sections[i].name in Preferred)
            && (forall i :: 0 <= i < |sections| ==> sections[i].name in Names(data) && sections[i] == SectionOf(data, sections[i].name))
            && TotalCells(sections) == |data|
  {
    var data := Flatten(list.data, fetch);
    var metrics := OrderMetrics(data);
    sections := BuildSections(data, metrics);
    assert SectionNames(sections) == metrics;
    TotalCellsGroups(data, sections, metrics);
    GroupsPartition(data, metrics);
  }
}

=== FILE: report.dfy ===
/** The portal's data as the program receives it, and the flattening of every report's assay items
    into one list of uniform records. */
module Report {
  import opened Seqs
  import opened Text

  /** The envelope of every API answer. */
  datatype ApiResponse<T> = ApiResponse(code: int, message: string, data: T, success: bool)

  /** One report's metadata, as listed by the report-list endpoint. */
  datatype ReportData = ReportData(
    reportNo: string,
    reportType: string,
    reportName: string,
    reportUrl: string,
    anamnesisNo: string,
    deptName: string,
    doctName: string,
    assayDate: string,
    patientName: string,
    patientGender: string,
    patientAge: string)

  /** One measured value within a report. */
  datatype AssayItem = AssayItem(
    itemId: string,
    itemName: string,
    unit: string,
    result: string,
    state: string,
    rangeLimit: string)

  /** The payload of the report-detail endpoint. */
  datatype ReportDetailData = ReportDetailData(
    conclusion: string,
    checkConclusion: string,
    assayItems: seq<AssayItem>)

  /** The flat record the rendering works on: one per (report, assay item) pair. */
  datatype Record = Record(
    name: string,
    unit: string,
    result: string,
    rangeLimit: string,
    date: string,
    state: string)

  /** The report-detail call: the program sends the patient's id card, a fixed start date and the
      report number. The answer is assumed to depend on the report number alone, as report numbers
      are unique; two list entries with the same number would get the same answer. */
  type DetailFetch = string -> ApiResponse<ReportDetailData>

  /** The assay items the detail call returns for `report`. */
  function ItemsOf(report: ReportData, fetch: DetailFetch): seq<AssayItem>
  {
    fetch(report.reportNo).data.assayItems
  }

  /** The record built for one assay item of one report. */
  function ToRecord(report: ReportData, item: AssayItem): (r: Record)
    ensures Marker !in r.name
  {
    Record(StripMarker(item.itemName), item.unit, item.result, item.rangeLimit, report.assayDate, item.state)
  }

  /** The records of one report, in item order. */
  function RecordsOf(report: ReportData, fetch: DetailFetch): (rs: seq<Record>)
    ensures |rs| == |ItemsOf(report, fetch)|
  {
    var items := ItemsOf(report, fetch);
    seq(|items|, j requires 0 <= j < |items| => ToRecord(report, items[j]))
  }

  /** Specification of the flattening: report after report, and within a report item after item. */
  function Flattened(reports: seq<ReportData>, fetch: DetailFetch): seq<Record>
  {
    if reports == [] then []
    else Flattened(reports[..|reports| - 1], fetch) + RecordsOf(reports[|reports| - 1], fetch)
  }

  /** The number of assay items over all reports. */
  function TotalItems(reports: seq<ReportData>, fetch: DetailFetch): nat
  {
    if reports == [] then 0
    else TotalItems(reports[..|reports| - 1], fetch) + |ItemsOf(reports[|reports| - 1], fetch)|
  }

  /** The flattening loop: for each listed report, fetch its detail and append one record per item. */
  method Flatten(reports: seq<ReportData>, fetch: DetailFetch) returns (data: seq<Record>)
    ensures data == Flattened(reports, fetch)
    ensures |data| == TotalItems(reports, fetch)
    ensures forall k :: 0 <= k < |data| ==> Marker !in data[k].name
  {
    data := [];
    for i := 0 to |reports|
      invariant data == Flattened(reports[..i], fetch)
    {
      var report := reports[i];
      var reportDetail := fetch(report.reportNo);
      var items := reportDetail.data.assayItems;
      for j := 0 to |items|
        invariant data == Flattened(reports[..i], fetch) + RecordsOf(report, fetch)[..j]
      {
        data := data + [ToRecord(report, items[j])];
        assert RecordsOf(report, fetch)[..j + 1] == RecordsOf(report, fetch)[..j] + [ToRecord(report, items[j])];
      }
      assert reports[..i + 1][..i] == reports[..i];
      assert RecordsOf(report, fetch)[..|items|] == RecordsOf(report, fetch);
    }
    assert reports[..|reports|] == reports;
    FlattenedLength(reports, fetch);
    FlattenedMarkerFree(reports, fetch);
  }

  /** Flattening two runs of reports one after the other is flattening each in turn. */
  lemma {:induction false} FlattenedAppend(a: seq<ReportData>, b: seq<ReportData>, fetch: DetailFetch)
    ensures Flattened(a + b, fetch) == Flattened(a, fetch) + Flattened(b, fetch)
  {
    if b == [] {
      assert a + b == a;
    } else {
      var b', last := b[..|b| - 1], b[|b| - 1];
      var ab := a + b;
      assert ab[..|ab| - 1] == a + b' && ab[|ab| - 1] == last;
      FlattenedAppend(a, b', fetch);
      Assoc(Flattened(a, fetch), Flattened(b', fetch), RecordsOf(last, fetch));
    }
  }

  /** There is exactly one record per assay item. */
  lemma {:induction false} FlattenedLength(reports: seq<ReportData>, fetch: DetailFetch)
    ensures |Flattened(reports, fetch)| == TotalItems(reports, fetch)
  {
    if reports != [] {
      FlattenedLength(reports[..|reports| - 1], fetch);
    }
  }

  /** No flattened name carries the marker. */
  lemma {:induction false} FlattenedMarkerFree(reports: seq<ReportData>, fetch: DetailFetch)
    ensures forall k :: 0 <= k < |Flattened(reports, fetch)| ==> Marker !in Flattened(reports, fetch)[k].name
  {
    if reports != [] {
      FlattenedMarkerFree(reports[..|reports| - 1], fetch);
    }
  }

  /** Item `j` of report `i` becomes the record at index (items of the reports before `i`) + `j`:
      report-major, then item order, with its date from the report and its other fields from the
      item. */
  lemma {:induction false} FlattenedAt(reports: seq<ReportData>, fetch: DetailFetch, i: nat, j: nat)
    requires i < |reports| && j < |ItemsOf(reports[i], fetch)|
    ensures TotalItems(reports[..i], fetch) + j < |Flattened(reports, fetch)|
    ensures var r, item := Flattened(reports, fetch)[TotalItems(reports[..i], fetch) + j], ItemsOf(reports[i], fetch)[j];
            && r == ToRecord(reports[i], item)
            && r.name == StripMarker(item.itemName)
            && r.date == reports[i].assayDate
            && r.unit == item.unit && r.result == item.result
            && r.rangeLimit == item.rangeLimit && r.state == item.state
  {
    var n := |reports| - 1;
    var front, here := Flattened(reports[..n], fetch), RecordsOf(reports[n], fetch);
    assert Flattened(reports, fetch) == front + here;
    FlattenedLength(reports[..n], fetch);
    if i == n {
      assert (front + here)[|front| + j] == here[j];
    } else {
      FlattenedAt(reports[..n], fetch, i, j);
      assert reports[..n][..i] == reports[..i];
      assert reports[..n][i] == reports[i];
    }
  }

  /** Conversely every record comes from some (report, item) pair placed as `FlattenedAt` says. */
  lemma {:induction false} FlattenedOrigin(reports: seq<ReportData>, fetch: DetailFetch, k: nat)
    returns (i: nat, j: nat)
    requires k < |Flattened(reports, fetch)|
    ensures i < |reports| && j < |ItemsOf(reports[i], fetch)|
    ensures k == TotalItems(reports[..i], fetch) + j
  {
    var n := |reports| - 1;
    var front := reports[..n];
    FlattenedLength(front, fetch);
    if k < |Flattened(front, fetch)| {
      i, j := FlattenedOrigin(front, fetch, k);
      assert front[..i] == reports[..i];
    } else {
      i, j := n, k - TotalItems(front, fetch);
    }
  }
}

=== FILE: seqs.dfy ===
/** Sequence helpers shared by the pipeline: Python's `filter` and duplicate-freedom. */
module Seqs {

  /** The elements of `s` for which `keep` holds, in their original order (Python's `filter`). */
  function Filter<T>(s: seq<T>, keep: T -> bool): (r: seq<T>)
    ensures |r| <= |s|
    ensures forall i :: 0 <= i < |r| ==> keep(r[i])
  {
    if s == [] then []
    else (if keep(s[0]) then [s[0]] else []) + Filter(s[1..], keep)
  }

  /** Concatenation is associative. */
  lemma Assoc<T>(a: seq<T>, b: seq<T>, c: seq<T>)
    ensures a + (b + c) == (a + b) + c
  {
  }

  /** A sequence is its part before `i`, its element at `i`, and its part after `i`. */
  lemma SplitAround<T>(s: seq<T>, i: int)
    requires 0 <= i < |s|
    ensures s == s[..i] + ([s[i]] + s[i + 1..])
  {
  }

  /** Filtering a sequence with a first element decides that element, then filters the rest. */
  lemma FilterCons<T>(x: T, t: seq<T>, keep: T -> bool)
    ensures Filter([x] + t, keep) == (if keep(x) then [x] else []) + Filter(t, keep)
  {
    assert ([x] + t)[1..] == t;
  }

  /** An element is kept exactly when it occurs in the input and satisfies the predicate. */
  lemma {:induction false} FilterMembers<T>(s: seq<T>, keep: T -> bool)
    ensures forall x :: x in Filter(s, keep) <==> x in s && keep(x)
  {
    if s != [] {
      FilterMembers(s[1..], keep);
      assert s == [s[0]] + s[1..];
    }
  }

  /** Filtering distributes over concatenation, so it keeps relative order. */
  lemma {:induction false} FilterAppend<T>(a: seq<T>, b: seq<T>, keep: T -> bool)
    ensures Filter(a + b, keep) == Filter(a, keep) + Filter(b, keep)
  {
    if a == [] {
      assert a + b == b;
    } else {
      var h, fa, fb := (if keep(a[0]) then [a[0]] else []), Filter(a[1..], keep), Filter(b, keep);
      assert (a + b)[0] == a[0] && (a + b)[1..] == a[1..] + b;
      FilterAppend(a[1..], b, keep);
      Assoc(h, fa, fb);
    }
  }

  /** Putting the same element in front of two sequences keeps an equation between their filtered
      versions. */
  lemma FilterConsBoth<T>(x: T, t: seq<T>, u: seq<T>, e: seq<T>, keep: T -> bool)
    requires Filter(u, keep) == Filter(t, keep) + e
    ensures Filter([x] + u, keep) == Filter([x] + t, keep) + e
  {
    FilterCons(x, u, keep);
    FilterCons(x, t, keep);
    Assoc(if keep(x) then [x] else [], Filter(t, keep), e);
  }

  /** The negation of a predicate. */
  function Not<T>(p: T -> bool): T -> bool
  {
    x => !p(x)
  }

  /** Filtering by a predicate and by its negation splits a sequence into two parts that together hold
      exactly its elements, with their multiplicities. */
  lemma {:induction false} FilterSplit<T>(s: seq<T>, keep: T -> bool)
    ensures multiset(Filter(s, keep)) + multiset(Filter(s, Not(keep))) == multiset(s)
  {
    if s != [] {
      var x, t := s[0], s[1..];
      FilterSplit(t, keep);
      assert s == [x] + t;
      SplitStep(Filter(t, keep), Filter(t, Not(keep)), x, keep(x));
    }
  }

  /** Adding `x` in front of one of two parts adds it to their union. */
  lemma SplitStep<T>(a: seq<T>, b: seq<T>, x: T, left: bool)
    ensures multiset((if left then [x] + a else a)) + multiset((if left then b else [x] + b))
         == multiset(a) + multiset(b) + multiset{x}
  {
  }

  /** The conjunction of two predicates. */
  function Both<T>(p: T -> bool, q: T -> bool): T -> bool
  {
    x => p(x) && q(x)
  }

  /** Filtering a filtered sequence is filtering by the conjunction. */
  lemma {:induction false} FilterFilter<T>(s: seq<T>, p: T -> bool, q: T -> bool)
    ensures Filter(Filter(s, p), q) == Filter(s, Both(p, q))
  {
    if s != [] {
      var x, t := s[0], s[1..];
      FilterFilter(t, p, q);
      FilterAppend(if p(x) then [x] else [], Filter(t, p), q);
    }
  }

  /** Filtering with a predicate that holds of every element changes nothing. */
  lemma {:induction false} FilterAll<T>(s: seq<T>, keep: T -> bool)
    requires forall i :: 0 <= i < |s| ==> keep(s[i])
    ensures Filter(s, keep) == s
  {
    if s != [] {
      FilterAll(s[1..], keep);
      assert s == [s[0]] + s[1..];
    }
  }

  /** Filtering with a predicate that holds of no element leaves nothing. */
  lemma {:induction false} FilterNone<T>(s: seq<T>, keep: T -> bool)
    requires forall i :: 0 <= i < |s| ==> !keep(s[i])
    ensures Filter(s, keep) == []
  {
    if s != [] {
      FilterNone(s[1..], keep);
    }
  }

  /** Filtering by two predicates that agree on every element gives the same result. */
  lemma {:induction false} FilterCongruent<T>(s: seq<T>, p: T -> bool, q: T -> bool)
    requires forall i :: 0 <= i < |s| ==> p(s[i]) == q(s[i])
    ensures Filter(s, p) == Filter(s, q)
  {
    if s != [] {
      FilterCongruent(s[1..], p, q);
    }
  }

  /** No element occurs twice. */
  predicate Distinct<T(==)>(s: seq<T>)
  {
    forall i, j :: 0 <= i < j < |s| ==> s[i] != s[j]
  }

  /** Filtering keeps a sequence free of duplicates. */
  lemma {:induction false} FilterDistinct<T>(s: seq<T>, keep: T -> bool)
    requires Distinct(s)
    ensures Distinct(Filter(s, keep))
  {
    if s != [] {
      var x, t := s[0], s[1..];
      FilterDistinct(t, keep);
      FilterMembers(t, keep);
      assert x !in t;
      var h := if keep(x) then [x] else [];
      var r := h + Filter(t, keep);
      forall i, j | 0 <= i < j < |r|
        ensures r[i] != r[j]
      {
        if i < |h| {
          assert r[j] in Filter(t, keep);
        }
      }
    }
  }
}

=== FILE: text.dfy ===
/** Python string operations the pipeline relies on: `str.replace`, removal of the decorative
    marker from item names, and `str` ordering (code point by code point, a proper prefix first). */
module Text {
  import opened Seqs

  /** The decorative marker some item names carry. */
  const Marker: char := '★'

  /** `pat` occurs in `s` starting at index `i`. */
  predicate OccursAt(s: string, pat: string, i: int)
  {
    0 <= i && i + |pat| <= |s| && s[i..i + |pat|] == pat
  }

  /** `pat` occurs somewhere in `s` (Python's `pat in s`). */
  predicate Contains(s: string, pat: string)
  {
    exists i :: 0 <= i <= |s| && OccursAt(s, pat, i)
  }

  /** Python's `s.replace(pat, rep)`: scanning from the left, every non-overlapping occurrence of
      `pat` becomes `rep`; the replacement text is not scanned again. An empty `pat` matches before
      every character and at the end. */
  function Replace(s: string, pat: string, rep: string): (r: string)
    ensures rep == pat ==> r == s
    ensures pat != [] && |rep| <= |pat| ==> |r| <= |s|
    ensures pat != [] && |rep| == |pat| ==> |r| == |s|
    decreases |s|
  {
    if pat == [] then
      if s == [] then rep else rep + [s[0]] + Replace(s[1..], pat, rep)
    else if |s| < |pat| then s
    else if s[..|pat|] == pat then rep + Replace(s[|pat|..], pat, rep)
    else [s[0]] + Replace(s[1..], pat, rep)
  }

  /** No occurrence of `pat` starts in `s` before index `n`. */
  predicate NoneStartsBefore(s: string, pat: string, n: int)
  {
    forall i :: 0 <= i < n ==> !OccursAt(s, pat, i)
  }

  /** A prefix in which no occurrence of `pat` starts passes through `Replace` unchanged. */
  lemma {:induction false} ReplaceSkip(x: string, y: string, pat: string, rep: string)
    requires pat != []
    requires NoneStartsBefore(x + y, pat, |x|)
    ensures Replace(x + y, pat, rep) == x + Replace(y, pat, rep)
  {
    if x == [] {
      assert x + y == y;
    } else {
      var s, c, x' := x + y, x[0], x[1..];
      assert s == [c] + (x' + y);
      if |pat| <= |s| {
        assert !OccursAt(s, pat, 0);
        ReplaceStep(s, pat, rep);
        assert s[1..] == x' + y;
        NoneStartsShift(c, x' + y, pat, |x'|);
        ReplaceSkip(x', y, pat, rep);
        Assoc([c], x', Replace(y, pat, rep));
        assert x == [c] + x';
      }
    }
  }

  /** When no occurrence starts at the front, the first character is kept and the scan moves on. */
  lemma ReplaceStep(s: string, pat: string, rep: string)
    requires pat != [] && |pat| <= |s| && !OccursAt(s, pat, 0)
    ensures Replace(s, pat, rep) == [s[0]] + Replace(s[1..], pat, rep)
  {
  }

  /** Putting a character in front moves every occurrence one place to the right. */
  lemma NoneStartsShift(c: char, t: string, pat: string, n: int)
    requires NoneStartsBefore([c] + t, pat, n + 1)
    ensures NoneStartsBefore(t, pat, n)
  {
    forall i | 0 <= i < n
      ensures !OccursAt(t, pat, i)
    {
      assert !OccursAt([c] + t, pat, i + 1);
      if i + |pat| <= |t| {
        assert ([c] + t)[i + 1..i + 1 + |pat|] == t[i..i + |pat|];
      }
    }
  }

  /** A text holding no character that starts `pat` passes through `Replace` unchanged. */
  lemma ReplaceSkipPlain(x: string, y: string, pat: string, rep: string)
    requires pat != [] && pat[0] !in x
    ensures Replace(x + y, pat, rep) == x + Replace(y, pat, rep)
  {
    forall i | 0 <= i < |x|
      ensures !OccursAt(x + y, pat, i)
    {
      if i + |pat| <= |x + y| {
        assert (x + y)[i..i + |pat|][0] == x[i];
      }
    }
    ReplaceSkip(x, y, pat, rep);
  }

  /** A field without an occurrence of `pat`, followed by text whose first character is not in
      `pat`, passes through `Replace` unchanged: no occurrence can start inside it or straddle its end. */
  lemma ReplaceSkipField(x: string, y: string, pat: string, rep: string)
    requires pat != [] && !Contains(x, pat)
    requires y != [] && y[0] !in pat
    ensures Replace(x + y, pat, rep) == x + Replace(y, pat, rep)
  {
    forall i | 0 <= i < |x|
      ensures !OccursAt(x + y, pat, i)
    {
      if i + |pat| <= |x| {
        assert x[i..i + |pat|] == (x + y)[i..i + |pat|];
        assert !OccursAt(x, pat, i);
      } else if i + |pat| <= |x + y| {
        assert (x + y)[i..i + |pat|][|x| - i] == y[0];
      }
    }
    ReplaceSkip(x, y, pat, rep);
  }

  /** A text in which the pattern does not occur is left as it is. */
  lemma ReplaceAbsent(s: string, pat: string, rep: string)
    requires pat != [] && !Contains(s, pat)
    ensures Replace(s, pat, rep) == s
  {
    assert s + [] == s;
    ReplaceSkip(s, [], pat, rep);
  }

  /** An occurrence at the very front is replaced, and scanning resumes after it. */
  lemma ReplaceFront(y: string, pat: string, rep: string)
    requires pat != []
    ensures Replace(pat + y, pat, rep) == rep + Replace(y, pat, rep)
  {
    assert (pat + y)[..|pat|] == pat;
    assert (pat + y)[|pat|..] == y;
  }

  /** Item-name cleaning: `name.replace('★', '')`. */
  function StripMarker(name: string): (r: string)
    ensures Marker !in r
    ensures |r| <= |name|
  {
    StripIsFilter(name);
    Replace(name, [Marker], [])
  }

  /** The character is not the marker. */
  predicate NotMarker(c: char)
  {
    c != Marker
  }

  /** Reference definition of marker stripping: keep exactly the characters that are not the marker,
      in order. */
  lemma {:induction false} StripIsFilter(name: string)
    ensures Replace(name, [Marker], []) == Filter(name, NotMarker)
  {
    if name != [] {
      var c, rest := name[0], name[1..];
      StripIsFilter(rest);
      StripStep(name);
      assert name == [c] + rest;
      FilterCons(c, rest, NotMarker);
    }
  }

  /** One step of stripping: the first character is dropped if it is the marker and kept otherwise. */
  lemma StripStep(name: string)
    requires name != []
    ensures Replace(name, [Marker], []) == (if name[0] == Marker then [] else [name[0]]) + Replace(name[1..], [Marker], [])
  {
    assert name[..1] == [name[0]];
  }

  /** Stripping works character by character: it distributes over concatenation. */
  lemma StripConcat(a: string, b: string)
    ensures StripMarker(a + b) == StripMarker(a) + StripMarker(b)
  {
    StripIsFilter(a + b);
    StripIsFilter(a);
    StripIsFilter(b);
    FilterAppend(a, b, NotMarker);
  }

  /** A name without the marker is left as it is, and only such a name is. */
  lemma StripUnchanged(name: string)
    ensures StripMarker(name) == name <==> Marker !in name
  {
    if Marker !in name {
      StripIsFilter(name);
      FilterAll(name, NotMarker);
    }
  }

  /** Stripping twice is stripping once. */
  lemma StripIdempotent(name: string)
    ensures StripMarker(StripMarker(name)) == StripMarker(name)
  {
    StripUnchanged(StripMarker(name));
  }

  /** Two names that differ only by markers strip to the same name: inserting a marker anywhere
      changes nothing. */
  lemma StripIgnoresMarker(a: string, b: string)
    ensures StripMarker(a + [Marker] + b) == StripMarker(a + b)
  {
    StripConcat(a + [Marker], b);
    StripConcat(a, [Marker]);
    StripConcat(a, b);
    assert StripMarker([Marker]) == [];
  }

  /** Python's `a <= b` on `str`: the first differing code point decides, and a proper prefix
      comes first. */
  predicate StrLe(a: string, b: string)
  {
    if a == [] then true
    else if b == [] then false
    else if a[0] != b[0] then a[0] < b[0]
    else StrLe(a[1..], b[1..])
  }

  /** Python's `a < b` on `str`. */
  predicate StrLt(a: string, b: string)
  {
    !StrLe(b, a)
  }

  lemma {:induction false} StrLeReflexive(a: string)
    ensures StrLe(a, a)
  {
    if a != [] {
      StrLeReflexive(a[1..]);
    }
  }

  lemma {:induction false} StrLeTotal(a: string, b: string)
    ensures StrLe(a, b) || StrLe(b, a)
  {
    if a != [] && b != [] && a[0] == b[0] {
      StrLeTotal(a[1..], b[1..]);
    }
  }

  lemma {:induction false} StrLeAntisymmetric(a: string, b: string)
    requires StrLe(a, b) && StrLe(b, a)
    ensures a == b
  {
    if a != [] && b != [] {
      StrLeAntisymmetric(a[1..], b[1..]);
      assert a == [a[0]] + a[1..] && b == [b[0]] + b[1..];
    }
  }

  lemma {:induction false} StrLeTransitive(a: string, b: string, c: string)
    requires StrLe(a, b) && StrLe(b, c)
    ensures StrLe(a, c)
  {
    if a != [] && b != [] && c != [] && a[0] == b[0] == c[0] {
      StrLeTransitive(a[1..], b[1..], c[1..]);
    }
  }
}
